=== FILE: README.md ===
# Beehives paradigm: trial generation and scoring rules

A Dafny model of the rules inside the Beehives experiment script
(`BeehivesParadigm_2023_01.py`). The script shows a stream of "bee" dots
drawn around one of two hives, asks for a left/right choice, shows a few
post-decisional dots whose generative mean is shifted toward or away from
the side the pre-decision dots favour, whatever the response, and in the
later blocks asks for a 1..6 confidence rating. The model lifts out the
parts that are rules rather than presentation:

- **Trial lists** (`trials.dfy`, `shuffling.dfy`, `practice.dfy`,
  `chunks.dfy`): the 4 x 2 x 2 product of difficulty, target side and
  post-decision direction, replicated `nb_main_trials_block / 16` times behind
  the divisibility guard; the per-block shuffle; the practice list drawn from
  the three larger offsets; the shorter pilot list and `divide_chunks`.
- **Evidence rule** (`evidence.dfy`): the signed generative mean of a trial,
  the per-block shift, the rule that moves the post-decisional mean by the
  shift, and the mean of the dot x coordinates.
- **Scoring** (`scoring.dfy`): the dot loop up to the first key press,
  accuracy, timeout sentinels, the confidence key-to-rating map and the row
  logged for a trial.
- **Block schedule** (`schedule.dfy`): which list each block runs, and which
  blocks are shifted and rated.

Randomness is input: `random.shuffle` is the swap loop of the Python
standard library with its draws given, or any reordering (multiset equality)
where only the outcome matters; `random.choice` is the index it picks; the
dot x coordinates are given reals. Key presses are given values. Python's `%`
is used only with the positive divisors 2 and 16, where it agrees with
Dafny's (both give a non-negative remainder).

The practice list draws from `dif_lvl[1:4]`, the three largest offsets and
so the three easiest conditions, as the comment on line 173 says. The
docstring (line 22) and the comment on line 163 ask for a fresh shuffle per
block; the code gives every main block the same order (see Findings).

## Model

| member | source | states |
|---|---|---|
| Trials.ProductMembers | BeehivesParadigm_2023_01.py:154-157 | the nested loops produce exactly the trials whose difficulty is one of the levels, with either side and either direction |
| Trials.TrialTypesAreTheTypes | BeehivesParadigm_2023_01.py:151-157 | the loops visit 16 trial types, each once, and they are exactly the trials with a difficulty from `dif_lvl` |
| Trials.ReplicateCount | BeehivesParadigm_2023_01.py:158-159 | after replication each distinct type occurs exactly `k` times and no other trial occurs |
| Trials.BuildTrialList | BeehivesParadigm_2023_01.py:154-159 | the list is built exactly when the trial count is divisible by 16 (otherwise the script quits, lines 87-89); it then has that many entries and every one of the 16 types appears count/16 times |
| Trials.ShippedTrialList | BeehivesParadigm_2023_01.py:73-89 | the shipped 64 trials pass the guard and give 4 trials of each type |
| Shuffling.Shuffle | BeehivesParadigm_2023_01.py:164 | an in-place shuffle with any valid random draws returns a reordering of its input: same trials, same multiplicities |
| Shuffling.ShuffleBlocks | BeehivesParadigm_2023_01.py:163-165 | shuffling once per main block gives one round per block, each a reordering of the round before |
| Shuffling.RoundIsShuffleOfBase | BeehivesParadigm_2023_01.py:163-165 | however many shuffles deep, the list is a reordering of the base list |
| Shuffling.MainTrialListAsWritten | BeehivesParadigm_2023_01.py:161-165 | as written, `main_trial_list` has one entry per shuffle round, every entry is the list in the order the last round left, and that order is a reordering of the base list |
| Shuffling.AliasedBlocksRepeatLastShuffle | BeehivesParadigm_2023_01.py:163-165 | two blocks whose shuffles differ: block 0 is presented in the second shuffle's order, not its own |
| Shuffling.MainTrialList | BeehivesParadigm_2023_01.py:161-165 | corrected: one entry per main block, block `b` in the order of its own shuffle, each a reordering of the base list of the same length |
| Shuffling.ShuffleKeepsTypeCounts | BeehivesParadigm_2023_01.py:163-165 | every main block holds each trial type exactly as often as the base list |
| Chunks.DivideChunks | BeehivesParadigm_2023_01.py:92-95 | a zero step raises `ValueError`, a negative step yields nothing, a positive step yields chunks whose concatenation is the list, all full but the last, which is non-empty and at most full |
| Chunks.ChunksFlatten | BeehivesParadigm_2023_01.py:92-95 | concatenating the chunks gives back the list |
| Chunks.ChunksShape | BeehivesParadigm_2023_01.py:92-95 | every chunk but the last has exactly `n` elements; the last has between 1 and `n` |
| Chunks.ChunksCount | BeehivesParadigm_2023_01.py:94 | the number of chunks is the ceiling of the length over `n` |
| Chunks.ChunkAt | BeehivesParadigm_2023_01.py:94-95 | chunk `k` is the slice `l[k*n : k*n + n]` of the `range(0, len(l), n)` loop, cut at the end of the list |
| Chunks.ChunksOfMultiple | BeehivesParadigm_2023_01.py:183 | a list of `m * n` elements is cut into `m` chunks of exactly `n` |
| Practice.PracticeTrialList | BeehivesParadigm_2023_01.py:172-174 | one practice trial per pass, `nb_training_trials` in all, every one with difficulty 6, 18 or 80 (never the hardest level 1) and of one of the 16 main types |
| Practice.PracticeListReachesEveryList | BeehivesParadigm_2023_01.py:173 | conversely every list of trials with difficulty 6, 18 or 80 is produced by some draws |
| Practice.TestingTrials | BeehivesParadigm_2023_01.py:179-181 | the pilot trials are picks from the trial list, as many as passes; picking from an empty list raises `IndexError` |
| Practice.TestingTrialsReachEveryList | BeehivesParadigm_2023_01.py:179-181 | conversely every list of trials from a non-empty trial list is produced by some picks |
| Practice.TestingTrialList | BeehivesParadigm_2023_01.py:179-183 | the pilot list cut by `nb_training_trials` has one full chunk per main block, each made of trials of the trial list, and the chunks concatenate, in order, to the drawn pilot trials |
| Practice.ShippedTestingList | BeehivesParadigm_2023_01.py:179-183 | the shipped 70 pilot trials form 7 chunks of 10, so `testing_trial_list[block - 1]` exists for blocks 1..7 |
| Evidence.GenerativeMean | BeehivesParadigm_2023_01.py:293-297 | the generative mean's x has the size of the difficulty and is negative exactly for a left target, positive exactly for a right one |
| Evidence.DistanceRoundTrip | BeehivesParadigm_2023_01.py:377-378 | the logged `distance` gives back difficulty and side of every trial type |
| Evidence.ShiftValue | BeehivesParadigm_2023_01.py:333-336 | the shift is 0 in blocks 0 and 1 and an element of `shift` from block 2 on, with `IndexError` past its end |
| Evidence.ShiftDefinedForEveryBlock | BeehivesParadigm_2023_01.py:333-336 | with `shift` a reordering of the six levels, every block of either session kind has a shift, 0 exactly in blocks 0 and 1 and one of the levels otherwise |
| Evidence.ShiftsDifferAcrossBlocks | BeehivesParadigm_2023_01.py:63 | two different shifted blocks never use the same level |
| Evidence.ShippedShiftsUseEveryLevelOnce | BeehivesParadigm_2023_01.py:333-336 | in the shipped session blocks 2..7 use the entries of `shift` in list order, so each of the six levels exactly once |
| Evidence.ShiftsFollowTheList | BeehivesParadigm_2023_01.py:333-336 | for any `shift` list, blocks 2, 3, ... have a shift as long as the list lasts, and block `b` uses entry `b - 2` |
| Evidence.PostDecisionMean | BeehivesParadigm_2023_01.py:339-343 | in practice the post-decisional mean is the pre-decision mean; in main blocks it moves by `+shft` when 'stronger' agrees with the side the mean favours (positive = right, zero or negative = left) and by `-shft` otherwise |
| Evidence.StrongerMovesAway | BeehivesParadigm_2023_01.py:339-343 | 'stronger' keeps the side of the mean and moves it `shft` further from the centre |
| Evidence.WeakerMovesToward | BeehivesParadigm_2023_01.py:339-343 | 'weaker' moves the mean `shft` closer to the centre when that does not carry it past the centre |
| Evidence.DirectionsMirror | BeehivesParadigm_2023_01.py:339-343 | the 'stronger' and 'weaker' means are mirror images around the pre-decision mean |
| Evidence.MeanSignIsSumSign | BeehivesParadigm_2023_01.py:326 | the mean of the dots' x coordinates has the sign of their sum |
| Evidence.MeanWithinBounds | BeehivesParadigm_2023_01.py:326 | the mean lies between the smallest and largest x coordinate |
| Scoring.PresentDots | BeehivesParadigm_2023_01.py:308-363 | the dots recorded for `mean_dots` are a prefix of the samples, at least one and at most 50; the response is the first key of the first non-empty poll and every earlier poll was empty; without one all 50 dots are recorded. On a response the loop breaks before drawing the dot it just recorded, so that last dot is averaged but never displayed |
| Scoring.Accuracy | BeehivesParadigm_2023_01.py:392-395 | for a choice key ACC is defined; it is 1 exactly for the key of the side the mean favours (negative = left `c`, otherwise right `n`) and 0 for the other choice key |
| Scoring.AccuracyReadsSumSign | BeehivesParadigm_2023_01.py:392-395 | accuracy from the mean equals accuracy from the sum of x coordinates |
| Scoring.AccuracyAgreesWithTarget | BeehivesParadigm_2023_01.py:392-395 | at the generative mean of a trial, the target side's key is the correct key and only it |
| Scoring.ZeroMeanReadDifferently | BeehivesParadigm_2023_01.py:340 | a mean of exactly 0 counts as right for accuracy but as left for the shift rule |
| Scoring.ConfidenceRating | BeehivesParadigm_2023_01.py:446-452 | a confidence key gives a rating in 1..6, and only confidence keys give one |
| Scoring.RatingKeyRoundTrip | BeehivesParadigm_2023_01.py:446-452 | each rating 1..6 is given by its key, for either subject parity |
| Scoring.KeyRatingRoundTrip | BeehivesParadigm_2023_01.py:446-452 | the rating of a key leads back to that key: the key-to-rating map is a bijection for either parity |
| Scoring.LabelAboveKeyNamesRating | BeehivesParadigm_2023_01.py:137-140 | for either parity, the scale label shown above the i-th key names the rating that key records |
| Scoring.ScoreTrial | BeehivesParadigm_2023_01.py:377-457 | a timed-out row has response 'timed-out' and -99 for rt, accuracy, confidence and confidence rt; an answered row logs the key and its time, the accuracy of that key against the mean of the recorded dots, that mean and the post-decisional mean the shift rule gives for it; a 1..6 rating (the one the confidence key maps to, with its time) exactly in confidence blocks, -99 otherwise; `distance` is the trial's generative mean; the logged shift is the block's own |
| Scoring.ScoredRowMeaning | BeehivesParadigm_2023_01.py:377-457 | for every input, an answered row has accuracy 1 exactly for the key of the side the summed dot x coordinates favour; the side of `distance` is the target; the shift is 0 exactly in blocks 0 and 1 and one of the levels otherwise; the label above the pressed confidence key names the logged rating |
| Scoring.LatestAnswered | BeehivesParadigm_2023_01.py:333-336 | the latest trial at or before trial `i` in which a key was pressed, and none exactly when no trial up to `i` was answered |
| Scoring.LogShiftsSpec | BeehivesParadigm_2023_01.py:333-381 | the shifts logged as written, with a value carried in, fail (with `NameError`) exactly when some trial has neither an answered trial at or before it nor a carried value; otherwise trial `i` logs the shift of the block of the latest answered trial up to `i` |
| Scoring.LoggedShiftsAsWrittenSpec | BeehivesParadigm_2023_01.py:333-381 | over a whole session as written, logging raises `NameError` exactly when the first trial times out, and otherwise every trial logs the shift of the latest answered trial at or before it |
| Scoring.AnsweredTrialsLogOwnShift | BeehivesParadigm_2023_01.py:333-381 | on answered trials the as-written log agrees with the corrected row: the trial's own block shift |
| Scoring.FirstTrialTimeoutRaises | BeehivesParadigm_2023_01.py:381 | a session whose first practice trial times out stops with `NameError` |
| Scoring.TimeoutLogsStaleShift | BeehivesParadigm_2023_01.py:381 | in a session of an answered practice trial, an answered block-1 trial and a timeout opening block 2, the timeout logs shift 0 although block 2's shift is not 0 |
| Schedule.BlockTrialList | BeehivesParadigm_2023_01.py:222-256 | block 0 runs the practice list; a later block runs exactly entry `block - 1` of the pilot list (pilot sessions) or the main list, with `IndexError` past its end |
| Schedule.EveryBlockHasItsList | BeehivesParadigm_2023_01.py:253-256 | with one list per main block, every block of the session finds one: a reordering of the base list, or `nb_training_trials` pilot trials |
| Schedule.PracticeNeverRated | BeehivesParadigm_2023_01.py:436 | the practice block never asks for confidence |
| Schedule.ShiftedExactlyWhenRated | BeehivesParadigm_2023_01.py:333-336 | in the shipped session a block has a non-zero shift exactly when it asks for confidence (blocks 2..7) |
| Schedule.ConfOnlyFirstRatedBlockUnshifted | BeehivesParadigm_2023_01.py:333-336 | with `conf_only` set, block 1 asks for confidence but has shift 0 |

## Left out

- Rendering, window and monitor set-up, the frame-count timing loops, the instruction slides and the end screen: presentation only.
- The refresh-rate check (lines 113-120): it measures hardware timing.
- The subject dialog, the existing-file check, creating `Data`, the `ExperimentHandler` output and `win32api` screen size: I/O and foreign calls.
- Sampling from the bivariate normal: the x coordinates are given reals; y coordinates feed no rule and are not modelled.
- The post-decisional dots themselves and their empirical mean (lines 345-357): `ScoreTrial` records the generative post-decisional mean the rule computes, not the mean of the five sampled dots.
- The block feedback statistics (lines 498-521): their float rounding is display only, but `statistics.mean(feedback_rt)` on line 498 raises `StatisticsError` when no trial of a main block other than the last was answered, since `feedback_rt` grows only on answered trials (lines 399-400); the model does not model this failure of the session.
- The practice feedback screen (lines 420-428): display only.
- The escape key and `core.quit()` during a block: process exit.
- Response times: taken as given reals; the clock is not modelled.
- Trials.BuildTrialList: `int(n/16)` is float division in the source; the model divides integers exactly, which differs only for counts beyond float precision.
- Scoring.ScoreTrial: on a timed-out trial the source logs the previous trial's pre- and post-decisional means and shift; the model logs no means and the block's own shift (see Findings).
- Scoring.ScoreTrial: key presses outside `choice_keys` and `cj_keys` cannot occur because the keyboard calls restrict the key lists; the model requires this of its inputs instead of modelling stale `ACC`/`cj` values.
- Scoring.ConfLabels: the source shows the six labels as one line of text; the model keeps them as six strings in screen order.
- Shuffling.Shuffle: the swap loop is the standard library's algorithm, which is not part of this model's source; the main-list members accept any reordering per round.

## Findings

| source | as written | input that shows it | evidently intended | confidence | as-written member | corrected member |
|---|---|---|---|---|---|---|
| BeehivesParadigm_2023_01.py:163-165 | the loop appends the same list object each time and shuffles it in place, so all main blocks share the order of the last shuffle | two main blocks whose shuffles give `[z, a]` then `[a, z]`: block 0 is run as `[a, z]` | each block in its own shuffled order, as the comment on line 163 says | high; not executed | Shuffling.MainTrialListAsWritten, Shuffling.AliasedBlocksRepeatLastShuffle | Shuffling.MainTrialList |
| BeehivesParadigm_2023_01.py:333-381 | `shft` (and `mean_dots`, `mean_add_dots`) are assigned only when a key is pressed but logged on every trial | no key press on the first practice trial: `NameError` at line 381; a timeout opening block 2: shift 0 logged | each row logs its own block's shift, whether answered or not | high; not executed | Scoring.LoggedShiftsAsWritten, Scoring.LoggedShiftsAsWrittenSpec, Scoring.FirstTrialTimeoutRaises, Scoring.TimeoutLogsStaleShift | Scoring.ScoreTrial |

=== FILE: chunks.dfy ===
/** The generator `divide_chunks(l, n)` of BeehivesParadigm_2023_01.py
    (lines 92-95): the slices `l[i:i + n]` for `i` in `range(0, len(l), n)`. */
module Chunks {
  import opened Common

  function Min(a: int, b: int): int
  {
    if a < b then a else b
  }

  /** The concatenation of all the pieces, in order. */
  function Flatten<T>(ss: seq<seq<T>>): seq<T>
  {
    if ss == [] then [] else ss[0] + Flatten(ss[1..])
  }

  /** The slices for a positive step: one slice per start index, the last
      one cut short by the end of the list, as Python slicing does. */
  function Chunks<T>(l: seq<T>, n: int): (r: seq<seq<T>>)
    requires n > 0
    ensures l == [] <==> r == []
    decreases |l|
  {
    if l == [] then []
    else if |l| <= n then [l]
    else [l[..n]] + Chunks(l[n..], n)
  }

  /** `list(divide_chunks(l, n))`. A step of 0 makes `range` raise
      `ValueError`; a negative step makes the range, and so the result, empty. */
  function DivideChunks<T>(l: seq<T>, n: int): (r: Result<seq<seq<T>>>)
    ensures r.Err? <==> n == 0
    ensures r.Err? ==> r.error == ValueError
    ensures n < 0 ==> r == Ok([])
    ensures n > 0 ==> r.Ok? && Flatten(r.value) == l
    ensures n > 0 ==> r.Ok? && IsChunking(r.value, n)
  {
    if n == 0 then Err(ValueError)
    else if n < 0 then Ok([])
    else
      ChunksFlatten(l, n);
      ChunksShape(l, n);
      Ok(Chunks(l, n))
  }

  /** Every piece but the last has exactly `n` elements; the last is
      non-empty and has at most `n`. */
  predicate IsChunking<T>(c: seq<seq<T>>, n: int)
  {
    && (forall k :: 0 <= k < |c| - 1 ==> |c[k]| == n)
    && (c != [] ==> 0 < |c[|c| - 1]| <= n)
  }

  /** Concatenating the chunks gives back the list. */
  lemma {:induction false} ChunksFlatten<T>(l: seq<T>, n: int)
    requires n > 0
    ensures Flatten(Chunks(l, n)) == l
    decreases |l|
  {
    if l != [] && |l| > n {
      ChunksFlatten(l[n..], n);
      assert Chunks(l, n)[1..] == Chunks(l[n..], n);
      assert l == l[..n] + l[n..];
    } else if l != [] {
      assert Flatten(Chunks(l, n)) == l + Flatten([]);
    }
  }

  /** Every chunk but the last is full; the last is non-empty and at most full. */
  lemma {:induction false} ChunksShape<T>(l: seq<T>, n: int)
    requires n > 0
    ensures IsChunking(Chunks(l, n), n)
    decreases |l|
  {
    if l != [] && |l| > n {
      var rest := Chunks(l[n..], n);
      ChunksShape(l[n..], n);
      var c := Chunks(l, n);
      assert c == [l[..n]] + rest;
      assert c[|c| - 1] == rest[|rest| - 1];
      forall k | 0 <= k < |c| - 1 ensures |c[k]| == n {
        if k > 0 {
          assert c[k] == rest[k - 1];
        }
      }
    }
  }

  /** The number of chunks is the ceiling of `|l| / n`: the last element of
      `l` falls in the last chunk's span. */
  lemma {:induction false} ChunksCount<T>(l: seq<T>, n: int)
    requires n > 0
    requires l != []
    ensures (|Chunks(l, n)| - 1) * n < |l| <= |Chunks(l, n)| * n
    decreases |l|
  {
    if |l| > n {
      var r := |Chunks(l[n..], n)|;
      ChunksCount(l[n..], n);
      assert |Chunks(l, n)| == r + 1;
      assert (r + 1) * n == r * n + n;
      assert r * n == (r - 1) * n + n;
    }
  }

  /** Chunk `k` is the slice `l[k*n : (k+1)*n]` of the range-based loop. */
  lemma {:induction false} ChunkAt<T>(l: seq<T>, n: int, k: nat)
    requires n > 0
    requires k < |Chunks(l, n)|
    ensures k * n < |l|
    ensures Chunks(l, n)[k] == l[k * n .. Min((k + 1) * n, |l|)]
    decreases |l|
  {
    if k > 0 {
      assert |l| > n;
      var rest := l[n..];
      assert Chunks(l, n) == [l[..n]] + Chunks(rest, n);
      assert Chunks(l, n)[k] == Chunks(rest, n)[k - 1];
      ChunkAt(rest, n, k - 1);
      MulStep(k, n);
      var lo := k * n;
      var hi := Min(lo + n, |l|);
      assert Min(lo, |rest|) == hi - n;
      SuffixSlice(l, n, lo - n, hi - n);
    }
  }

  /** Slicing a suffix is slicing the list at shifted bounds. */
  lemma SuffixSlice<T>(l: seq<T>, n: nat, a: int, b: int)
    requires n <= |l|
    requires 0 <= a <= b <= |l| - n
    ensures l[n..][a..b] == l[n + a .. n + b]
  {
  }

  lemma MulStep(k: int, n: int)
    ensures (k - 1) * n == k * n - n
    ensures (k + 1) * n == k * n + n
  {
  }

  /** A list of `m` times `n` elements is cut into `m` full chunks. */
  lemma {:induction false} ChunksOfMultiple<T>(l: seq<T>, n: int, m: nat)
    requires n > 0
    requires |l| == n * m
    ensures |Chunks(l, n)| == m
    ensures forall k :: 0 <= k < m ==> |Chunks(l, n)[k]| == n
    decreases m
  {
    if m > 1 {
      assert |l| > n by {
        assert n * m == n * (m - 1) + n;
        assert n * (m - 1) >= n * 1;
      }
      assert |l[n..]| == n * (m - 1);
      ChunksOfMultiple(l[n..], n, m - 1);
      assert Chunks(l, n) == [l[..n]] + Chunks(l[n..], n);
    } else if m == 1 {
      assert Chunks(l, n) == [l];
    }
  }
}

=== FILE: common.dfy ===
/** Outcome types shared by every module of the model. */
module Common {

  /** The ways the experiment script stops early: `Quit` is an explicit
      `core.quit()` after a failed guard, the others are the Python
      exceptions the script would raise. */
  datatype Error = Quit | ValueError | IndexError | NameError

  datatype Result<+T> = Ok(value: T) | Err(error: Error)

  datatype Option<+T> = None | Some(value: T)

  /** Number of passes of `for _ in range(n)`: none when `n` is negative. */
  function Iterations(n: int): nat
  {
    if n < 0 then 0 else n
  }

  function Abs(x: int): nat
  {
    if x < 0 then -x else x
  }

  function RealAbs(x: real): real
  {
    if x < 0.0 then -x else x
  }

  /** No element occurs twice. */
  predicate Distinct<T(==)>(s: seq<T>)
  {
    forall i, j :: 0 <= i < j < |s| ==> s[i] != s[j]
  }

  /** Position of the first occurrence of `x` in `s`, if any. */
  function IndexOf<T(==)>(s: seq<T>, x: T): (r: Option<nat>)
    ensures r.Some? <==> x in s
    ensures r.Some? ==> r.value < |s| && s[r.value] == x
    ensures r.Some? ==> forall j :: 0 <= j < r.value ==> s[j] != x
  {
    if s == [] then None
    else if s[0] == x then Some(0)
    else match IndexOf(s[1..], x)
      case None => None
      case Some(i) => Some(i + 1)
  }

  /** In a sequence without repetitions, the first occurrence of `s[i]` is `i`. */
  lemma IndexOfDistinct<T>(s: seq<T>, i: nat)
    requires Distinct(s)
    requires i < |s|
    ensures IndexOf(s, s[i]) == Some(i)
  {
  }

  /** In a sequence without repetitions every value occurs at most once. */
  lemma {:induction false} DistinctCount<T>(s: seq<T>, x: T)
    requires Distinct(s)
    ensures multiset(s)[x] <= 1
  {
    if s != [] {
      var rest := s[1..];
      assert Distinct(rest) by {
        forall i, j | 0 <= i < j < |rest| ensures rest[i] != rest[j] {
          assert rest[i] == s[i + 1] && rest[j] == s[j + 1];
        }
      }
      DistinctCount(rest, x);
      assert s == [s[0]] + rest;
      if x == s[0] {
        assert x !in rest by {
          forall k | 0 <= k < |rest| ensures rest[k] != x {
            assert rest[k] == s[k + 1];
          }
        }
      }
    }
  }

  /** A reordering of a sequence without repetitions has none either. */
  lemma ReorderingKeepsDistinct<T>(s: seq<T>, t: seq<T>)
    requires Distinct(s)
    requires multiset(t) == multiset(s)
    ensures Distinct(t)
  {
    forall i, j | 0 <= i < j < |t| ensures t[i] != t[j] {
      if t[i] == t[j] {
        var x := t[i];
        assert t == t[..i] + [x] + t[i + 1..j] + [x] + t[j + 1..];
        assert multiset(t)[x] >= 2;
        DistinctCount(s, x);
        assert false;
      }
    }
  }
}

=== FILE: evidence.dfy ===
/** The generative means of one trial (BeehivesParadigm_2023_01.py, lines
    291-297 and 326-343): the pre-decision mean set by target side and
    difficulty, the per-block shift, and the rule that moves the
    post-decisional mean by that shift. Dot coordinates are given reals. */
module Evidence {
  import opened Common
  import opened Parameters
  import opened Trials
  import opened Shuffling

  /** The x coordinate of the pre-decision generative mean, logged as `distance`:
      the target side gives the sign and the difficulty the size. */
  function GenerativeMean(t: Trial): (x: int)
    ensures t.difficulty >= 0 ==> Abs(x) == t.difficulty
    ensures t.difficulty > 0 ==> (x < 0 <==> t.target.Left?)
    ensures t.difficulty > 0 ==> (x > 0 <==> t.target.Right?)
  {
    if t.target == Left then -t.difficulty else t.difficulty
  }

  /** The side a signed distance points to. */
  function SideOfDistance(x: int): Side
  {
    if x < 0 then Left else Right
  }

  /** The logged `distance` determines difficulty and side: reading them back
      from it gives the trial again, for every trial type. */
  lemma DistanceRoundTrip(t: Trial)
    requires IsTrialType(t)
    ensures Trial(Abs(GenerativeMean(t)), SideOfDistance(GenerativeMean(t)), t.postDecisionEvi) == t
  {
  }

  /** `shft`: no shift in the practice block and in the first main block;
      block `b >= 2` uses `shift[b - 2]`, raising `IndexError` past its end. */
  function ShiftValue(block: nat, shift: seq<int>): (r: Result<int>)
    ensures r.Ok? <==> block <= 1 || block - 2 < |shift|
    ensures r.Err? ==> r.error == IndexError
    ensures block <= 1 ==> r == Ok(0)
    ensures r.Ok? && block >= 2 ==> r.value in shift
  {
    if block <= 1 then Ok(0)
    else if block - 2 < |shift| then Ok(shift[block - 2])
    else Err(IndexError)
  }

  /** A reordering of the six levels has six entries, each one of the levels. */
  lemma ShiftOrderEntries(shift: seq<int>)
    requires IsShuffleOf(shift, ShiftLevels)
    ensures |shift| == |ShiftLevels|
    ensures forall i :: 0 <= i < |shift| ==> shift[i] in ShiftLevels
  {
    assert |shift| == |multiset(shift)| == |multiset(ShiftLevels)|;
    forall i | 0 <= i < |shift| ensures shift[i] in ShiftLevels {
      assert shift[i] in multiset(shift);
    }
  }

  /** With `shift` a reordering of the six levels, every block of the session
      has a shift; it is 0 exactly in blocks 0 and 1 and one of the levels
      otherwise. */
  lemma ShiftDefinedForEveryBlock(c: Config, shift: seq<int>, block: nat)
    requires IsShuffleOf(shift, ShiftLevels)
    requires block < NbTotalBlocks(c)
    ensures ShiftValue(block, shift).Ok?
    ensures ShiftValue(block, shift).value == 0 <==> block <= 1
    ensures block >= 2 ==> ShiftValue(block, shift).value in ShiftLevels
  {
    ShiftOrderEntries(shift);
  }

  /** Two different shifted blocks never share a shift level. */
  lemma ShiftsDifferAcrossBlocks(c: Config, shift: seq<int>, b1: nat, b2: nat)
    requires IsShuffleOf(shift, ShiftLevels)
    requires 2 <= b1 < b2 < NbTotalBlocks(c)
    ensures ShiftValue(b1, shift).Ok? && ShiftValue(b2, shift).Ok?
    ensures ShiftValue(b1, shift).value != ShiftValue(b2, shift).value
  {
    ShiftDefinedForEveryBlock(c, shift, b1);
    ShiftDefinedForEveryBlock(c, shift, b2);
    ReorderingKeepsDistinct(ShiftLevels, shift);
  }

  /** In the shipped session the six shifted blocks 2..7 use every level
      exactly once. */
  lemma ShippedShiftsUseEveryLevelOnce(shift: seq<int>)
    requires IsShuffleOf(shift, ShiftLevels)
    ensures forall b :: 2 <= b < NbTotalBlocks(Shipped) ==> ShiftValue(b, shift).Ok?
    ensures seq(6, i requires 0 <= i < 6 => ShiftValue(i + 2, shift).value) == shift
    ensures multiset(seq(6, i requires 0 <= i < 6 => ShiftValue(i + 2, shift).value)) == multiset(ShiftLevels)
  {
  }

  /** Blocks 2, 3, ... run the levels in the order of the `shift` list:
      block `b` uses entry `b - 2`. */
  lemma ShiftsFollowTheList(shift: seq<int>)
    ensures forall b :: 2 <= b < |shift| + 2 ==> ShiftValue(b, shift).Ok?
    ensures seq(|shift|, i requires 0 <= i < |shift| => ShiftValue(i + 2, shift).value) == shift
  {
  }

  /** The side the shift rule reads from the accumulated evidence: +1 when the
      mean of the pre-decision dots is positive, -1 otherwise (0 counts as left). */
  function Polarity(m: real): int
  {
    if m > 0.0 then 1 else -1
  }

  /** The mean of the post-decisional generative distribution (lines 327-343).
      In the practice block it is the mean of the pre-decision dots; in the
      main blocks 'stronger' moves it by `shft` further to the side the
      pre-decision evidence favours and 'weaker' moves it back toward the other. */
  function PostDecisionMean(block: nat, preMean: real, dir: Direction, shft: int): (r: real)
    ensures block < NbTrainingBlocks ==> r == preMean
    ensures block >= NbTrainingBlocks && (dir.Stronger? <==> Polarity(preMean) == 1) ==> r == preMean + shft as real
    ensures block >= NbTrainingBlocks && (dir.Stronger? <==> Polarity(preMean) == -1) ==> r == preMean - shft as real
  {
    var m := preMean;
    if block >= NbTrainingBlocks then
      if (m > 0.0 && dir == Stronger) || (m <= 0.0 && dir == Weaker) then m + shft as real
      else m - shft as real
    else m
  }

  /** 'Stronger' keeps the side and moves the mean `shft` further from the centre. */
  lemma StrongerMovesAway(block: nat, preMean: real, shft: int)
    requires block >= NbTrainingBlocks
    requires shft >= 0
    ensures Polarity(PostDecisionMean(block, preMean, Stronger, shft)) == Polarity(preMean)
    ensures RealAbs(PostDecisionMean(block, preMean, Stronger, shft)) == RealAbs(preMean) + shft as real
  {
  }

  /** 'Weaker' moves the mean `shft` closer to the centre when the shift does
      not carry it past the centre. */
  lemma WeakerMovesToward(block: nat, preMean: real, shft: int)
    requires block >= NbTrainingBlocks
    requires 0 <= shft && shft as real <= RealAbs(preMean)
    ensures RealAbs(PostDecisionMean(block, preMean, Weaker, shft)) == RealAbs(preMean) - shft as real
  {
  }

  /** The two directions are mirror images around the pre-decision mean. */
  lemma DirectionsMirror(block: nat, preMean: real, shft: int)
    ensures PostDecisionMean(block, preMean, Stronger, shft) + PostDecisionMean(block, preMean, Weaker, shft)
            == 2.0 * preMean
  {
  }

  /** Sum of the x coordinates. */
  function Sum(xs: seq<real>): real
  {
    if xs == [] then 0.0 else xs[0] + Sum(xs[1..])
  }

  /** `np.mean` of the x coordinates of the dots recorded. */
  function MeanX(xs: seq<real>): real
    requires xs != []
  {
    Sum(xs) / |xs| as real
  }

  /** The mean has the sign of the sum, so every rule that reads the sign of
      `mean_dots` reads the sign of the summed evidence. */
  lemma MeanSignIsSumSign(xs: seq<real>)
    requires xs != []
    ensures MeanX(xs) < 0.0 <==> Sum(xs) < 0.0
    ensures MeanX(xs) > 0.0 <==> Sum(xs) > 0.0
    ensures MeanX(xs) == 0.0 <==> Sum(xs) == 0.0
  {
    var n := |xs| as real;
    assert MeanX(xs) * n == Sum(xs);
  }

  /** The mean lies between the smallest and the largest coordinate. */
  lemma {:induction false} MeanWithinBounds(xs: seq<real>, lo: real, hi: real)
    requires xs != []
    requires forall i :: 0 <= i < |xs| ==> lo <= xs[i] <= hi
    ensures lo <= MeanX(xs) <= hi
  {
    SumWithinBounds(xs, lo, hi);
    var n := |xs| as real;
    assert MeanX(xs) * n == Sum(xs);
  }

  lemma {:induction false} SumWithinBounds(xs: seq<real>, lo: real, hi: real)
    requires forall i :: 0 <= i < |xs| ==> lo <= xs[i] <= hi
    ensures |xs| as real * lo <= Sum(xs) <= |xs| as real * hi
  {
    if xs != [] {
      SumWithinBounds(xs[1..], lo, hi);
    }
  }
}

=== FILE: parameters.dfy ===
/** The experiment parameters of the script's header: block and trial counts,
    difficulty levels, shift levels and the response keys. */
module Parameters {

  /** The two switches at the top of the script. The shipped script has both off. */
  datatype Config = Config(pilot: bool, confOnly: bool)

  const Shipped: Config := Config(false, false)

  /** Shift levels of the post-decisional generative mean, before shuffling. */
  const ShiftLevels: seq<int> := [10, 20, 30, 40, 50, 60]

  const NbTrainingBlocks: nat := 1
  const NbTrainingTrials: int := 10

  function NbMainBlocks(c: Config): nat
  {
    if c.confOnly then 6 else 7
  }

  function NbTotalBlocks(c: Config): nat
  {
    NbTrainingBlocks + NbMainBlocks(c)
  }

  /** The last `NbConfBlocks` blocks ask for a confidence rating. */
  const NbConfBlocks: nat := 6

  const NbMainTrialsBlock: int := 64

  /** Response deadline, counted in dots. */
  const MaxDots: nat := 50

  /** Distances of the generative mean from the centre, in pixels. */
  const DifLvl: seq<int> := [1, 6, 18, 80]

  /** Left and right choice keys. */
  const ChoiceKeys: seq<string> := ["c", "n"]

  /** Confidence keys, left to right on the keyboard. */
  const CjKeys: seq<string> := ["1", "2", "3", "8", "9", "0"]

  /** The value written for fields a timed-out or unrated trial does not have. */
  const Sentinel: int := -99
}

=== FILE: practice.dfy ===
/** The practice list (BeehivesParadigm_2023_01.py, lines 169-174) and the
    shorter pilot list cut into blocks (lines 178-183). Each `random.choice`
    is modelled as the index it picks, given as input. */
module Practice {
  import opened Common
  import opened Parameters
  import opened Trials
  import opened Chunks

  /** `dif_lvl[1:4]`: every level but the smallest offset, 1. */
  const PracticeDifficulties: seq<int> := DifLvl[1..4]

  const Sides: seq<Side> := [Left, Right]
  const Directions: seq<Direction> := [Stronger, Weaker]

  /** The three `random.choice` picks of one practice trial, as indices. */
  datatype PracticeDraw = PracticeDraw(difficultyPick: int, targetPick: int, eviPick: int)

  predicate IsDraw(d: PracticeDraw)
  {
    && 0 <= d.difficultyPick < |PracticeDifficulties|
    && 0 <= d.targetPick < |Sides|
    && 0 <= d.eviPick < |Directions|
  }

  predicate IsPracticeType(t: Trial)
  {
    t.difficulty in PracticeDifficulties
  }

  function PracticeTrial(d: PracticeDraw): (t: Trial)
    requires IsDraw(d)
    ensures IsPracticeType(t)
  {
    Trial(PracticeDifficulties[d.difficultyPick], Sides[d.targetPick], Directions[d.eviPick])
  }

  /** `practice_trial_list`: one trial per pass of `range(nb_training_trials)`,
      each built from its own draws. No practice trial has the smallest
      offset 1; every one is of one of the 16 main types. */
  function PracticeTrialList(nbTrainingTrials: int, draws: seq<PracticeDraw>): (r: seq<Trial>)
    requires |draws| == Iterations(nbTrainingTrials)
    requires forall i :: 0 <= i < |draws| ==> IsDraw(draws[i])
    ensures |r| == Iterations(nbTrainingTrials)
    ensures forall i :: 0 <= i < |r| ==> r[i].difficulty in {6, 18, 80}
    ensures forall i :: 0 <= i < |r| ==> IsTrialType(r[i])
  {
    assert PracticeDifficulties == [6, 18, 80];
    var r := seq(|draws|, i requires 0 <= i < |draws| => PracticeTrial(draws[i]));
    assert forall i :: 0 <= i < |r| ==> r[i] == PracticeTrial(draws[i]);
    r
  }

  /** The draws that produce a given practice trial. */
  function DrawFor(t: Trial): (d: PracticeDraw)
    requires IsPracticeType(t)
    ensures IsDraw(d) && PracticeTrial(d) == t
  {
    var i :| 0 <= i < |PracticeDifficulties| && PracticeDifficulties[i] == t.difficulty;
    PracticeDraw(i, if t.target == Left then 0 else 1, if t.postDecisionEvi == Stronger then 0 else 1)
  }

  /** Conversely, every list of practice-type trials is a possible practice
      list: the draws reach all 3 x 2 x 2 restricted types in any order. */
  lemma PracticeListReachesEveryList(ts: seq<Trial>)
    requires forall i :: 0 <= i < |ts| ==> IsPracticeType(ts[i])
    ensures var draws := seq(|ts|, i requires 0 <= i < |ts| => DrawFor(ts[i]));
            PracticeTrialList(|ts|, draws) == ts
  {
  }

  /** `testing_trials`: `count` trials picked with `random.choice` from the
      main trial list; `picks[i]` is the index picked on pass `i`. Picking
      from an empty list raises `IndexError`. */
  function TestingTrials(trialList: seq<Trial>, count: int, picks: seq<int>): (r: Result<seq<Trial>>)
    requires |picks| == Iterations(count)
    requires trialList != [] ==> forall i :: 0 <= i < |picks| ==> 0 <= picks[i] < |trialList|
    ensures r.Err? <==> trialList == [] && Iterations(count) > 0
    ensures r.Err? ==> r.error == IndexError
    ensures r.Ok? ==> |r.value| == Iterations(count)
    ensures r.Ok? ==> forall i :: 0 <= i < |r.value| ==> r.value[i] in trialList
  {
    if trialList == [] && |picks| > 0 then Err(IndexError)
    else Ok(seq(|picks|, i requires 0 <= i < |picks| => trialList[picks[i]]))
  }

  /** Conversely, every list of trials taken from a non-empty trial list is
      a possible pilot list: pick each trial's first position. */
  lemma TestingTrialsReachEveryList(trialList: seq<Trial>, ts: seq<Trial>)
    requires trialList != []
    requires forall i :: 0 <= i < |ts| ==> ts[i] in trialList
    ensures var picks := seq(|ts|, i requires 0 <= i < |ts| => IndexOf(trialList, ts[i]).value);
            TestingTrials(trialList, |ts|, picks) == Ok(ts)
  {
    var picks := seq(|ts|, i requires 0 <= i < |ts| => IndexOf(trialList, ts[i]).value);
    assert TestingTrials(trialList, |ts|, picks).value == ts;
  }

  /** `testing_trial_list`: the pilot trials for `nbMainBlocks` blocks, cut
      into blocks of `nb_training_trials`. With the shipped counts that gives
      one full block per main block. */
  function TestingTrialList(trialList: seq<Trial>, nbMainBlocks: nat, picks: seq<int>): (r: Result<seq<seq<Trial>>>)
    requires |picks| == Iterations(NbTrainingTrials * nbMainBlocks)
    requires trialList != [] ==> forall i :: 0 <= i < |picks| ==> 0 <= picks[i] < |trialList|
    ensures r.Ok? <==> trialList != [] || nbMainBlocks == 0
    ensures r.Ok? ==> |r.value| == nbMainBlocks
    ensures r.Ok? ==> forall b :: 0 <= b < nbMainBlocks ==> |r.value[b]| == NbTrainingTrials
    ensures r.Ok? ==> forall b, i :: 0 <= b < nbMainBlocks && 0 <= i < |r.value[b]| ==> r.value[b][i] in trialList
    ensures r.Ok? ==> Flatten(r.value) == TestingTrials(trialList, NbTrainingTrials * nbMainBlocks, picks).value
  {
    match TestingTrials(trialList, NbTrainingTrials * nbMainBlocks, picks)
    case Err(e) => Err(e)
    case Ok(testing) =>
      ChunksOfMultiple(testing, NbTrainingTrials, nbMainBlocks);
      ChunksFlatten(testing, NbTrainingTrials);
      var chunks := DivideChunks(testing, NbTrainingTrials).value;
      assert forall b, i :: 0 <= b < nbMainBlocks && 0 <= i < |chunks[b]| ==> chunks[b][i] in trialList by {
        forall b, i | 0 <= b < nbMainBlocks && 0 <= i < |chunks[b]| ensures chunks[b][i] in trialList {
          ChunkAt(testing, NbTrainingTrials, b);
          assert chunks[b][i] == testing[b * NbTrainingTrials + i];
        }
      }
      Ok(chunks)
  }

  /** With the shipped counts the 70 pilot trials form 7 blocks of 10, so
      `testing_trial_list[block - 1]` exists for every main block 1..7
      (`b` below is `block - 1`). */
  lemma ShippedTestingList(trialList: seq<Trial>, picks: seq<int>)
    requires trialList != []
    requires |picks| == 70
    requires forall i :: 0 <= i < |picks| ==> 0 <= picks[i] < |trialList|
    ensures var r := TestingTrialList(trialList, NbMainBlocks(Shipped), picks);
            r.Ok? && |r.value| == 7 && forall b :: 0 <= b < 7 ==> |r.value[b]| == 10
  {
  }
}

=== FILE: schedule.dfy ===
/** The block loop of BeehivesParadigm_2023_01.py (lines 222-256): which
    trial list each block runs, which blocks are shifted and which ask for
    confidence. */
module Schedule {
  import opened Common
  import opened Parameters
  import opened Trials
  import opened Shuffling
  import opened Evidence
  import opened Scoring

  /** `which_trial_list` of block `block`: the practice list in the training
      block, then `testing_trial_list[block - 1]` in a pilot session or
      `main_trial_list[block - 1]` otherwise. An index past the end raises
      `IndexError`. */
  function BlockTrialList(c: Config, block: nat, practice: seq<Trial>,
                          main: seq<seq<Trial>>, testing: seq<seq<Trial>>): (r: Result<seq<Trial>>)
    ensures block < NbTrainingBlocks ==> r == Ok(practice)
    ensures block >= NbTrainingBlocks ==> (r.Ok? <==> block - 1 < |if c.pilot then testing else main|)
    ensures r.Err? ==> r.error == IndexError
    ensures block >= NbTrainingBlocks && r.Ok? ==> r.value == (if c.pilot then testing else main)[block - 1]
  {
    if block < NbTrainingBlocks then Ok(practice)
    else
      var lists := if c.pilot then testing else main;
      if block - 1 < |lists| then Ok(lists[block - 1]) else Err(IndexError)
  }

  /** With one shuffle round per main block and one pilot chunk per main
      block, every block of the session finds its list: a reordering of the
      base list in a regular session, `nb_training_trials` trials in a pilot. */
  lemma EveryBlockHasItsList(c: Config, block: nat, practice: seq<Trial>, base: seq<Trial>,
                             rounds: seq<seq<Trial>>, testing: seq<seq<Trial>>)
    requires block < NbTotalBlocks(c)
    requires ShuffleRounds(base, rounds) && |rounds| == NbMainBlocks(c)
    requires |testing| == NbMainBlocks(c)
    requires forall b :: 0 <= b < |testing| ==> |testing[b]| == NbTrainingTrials
    ensures BlockTrialList(c, block, practice, MainTrialList(base, rounds), testing).Ok?
    ensures block >= 1 && !c.pilot ==>
              IsShuffleOf(BlockTrialList(c, block, practice, MainTrialList(base, rounds), testing).value, base)
    ensures block >= 1 && c.pilot ==>
              |BlockTrialList(c, block, practice, MainTrialList(base, rounds), testing).value| == NbTrainingTrials
  {
    var main := MainTrialList(base, rounds);
    if block >= 1 && !c.pilot {
      assert BlockTrialList(c, block, practice, main, testing).value == main[block - 1];
    }
  }

  /** The practice block never asks for confidence, in either session kind. */
  lemma PracticeNeverRated(c: Config)
    ensures !IsConfidenceBlock(c, 0)
  {
  }

  /** In the shipped session the shift manipulation and the confidence
      question go together: a block is shifted exactly when it asks for
      confidence, which is blocks 2..7. */
  lemma ShiftedExactlyWhenRated(shift: seq<int>, block: nat)
    requires IsShuffleOf(shift, ShiftLevels)
    requires block < NbTotalBlocks(Shipped)
    ensures ShiftValue(block, shift).Ok?
    ensures ShiftValue(block, shift).value != 0 <==> IsConfidenceBlock(Shipped, block)
  {
    ShiftDefinedForEveryBlock(Shipped, shift, block);
  }

  /** With `conf_only` set, block 1 already asks for confidence but still
      runs without a shift. */
  lemma ConfOnlyFirstRatedBlockUnshifted(shift: seq<int>)
    ensures IsConfidenceBlock(Config(false, true), 1)
    ensures ShiftValue(1, shift) == Ok(0)
  {
  }
}

=== FILE: scoring.dfy ===
/** What one trial records (BeehivesParadigm_2023_01.py, lines 307-481):
    the dots recorded until the first response, the accuracy, the timeout
    sentinels and the confidence rating. Key presses are given inputs. */
module Scoring {
  import opened Common
  import opened Parameters
  import opened Trials
  import opened Shuffling
  import opened Evidence

  /** A key name with the time at which it was pressed. */
  datatype KeyPress = KeyPress(key: string, time: real)

  /** The dot loop of lines 308-363: dot `k` is sampled and recorded, then
      the keyboard is polled (`polls[k]` is what `event.getKeys` returns). The
      loop stops at the first non-empty poll, whose first key is the response;
      it stops before drawing dot `k`, so the last recorded dot of an answered
      trial enters `mean_dots` without ever being displayed. Without a
      response all `MaxDots` dots are recorded (and displayed). */
  method PresentDots(samples: seq<real>, polls: seq<seq<KeyPress>>) returns (recorded: seq<real>, press: Option<KeyPress>)
    requires |samples| == MaxDots && |polls| == MaxDots
    ensures 0 < |recorded| <= MaxDots && recorded == samples[..|recorded|]
    ensures forall j :: 0 <= j < |recorded| - 1 ==> polls[j] == []
    ensures press.Some? ==> polls[|recorded| - 1] != [] && press.value == polls[|recorded| - 1][0]
    ensures press.None? ==> |recorded| == MaxDots && polls[MaxDots - 1] == []
  {
    recorded := [];
    press := None;
    var number := 0;
    while number < MaxDots
      invariant 0 <= number <= MaxDots
      invariant recorded == samples[..number]
      invariant forall j :: 0 <= j < number ==> polls[j] == []
    {
      recorded := recorded + [samples[number]];
      if polls[number] != [] {
        press := Some(polls[number][0]);
        return;
      }
      number := number + 1;
    }
  }

  /** The choice key of a side: `choice_keys` lists left, then right. */
  function KeyOfSide(s: Side): string
  {
    if s == Left then ChoiceKeys[0] else ChoiceKeys[1]
  }

  /** The side accuracy credits to a mean x coordinate: negative is left,
      zero and positive are right. */
  function EvidenceSide(m: real): Side
  {
    if m < 0.0 then Left else Right
  }

  /** `ACC` of lines 392-395: 1 for the key of the side the pre-decision dots
      favour, 0 for the other choice key. A key outside `choice_keys` leaves
      `ACC` unassigned, modelled as `None`. */
  function Accuracy(meanDots: real, key: string): (r: Option<int>)
    ensures r.Some? <==> key in ChoiceKeys
    ensures r == Some(1) <==> key == KeyOfSide(EvidenceSide(meanDots))
    ensures r == Some(0) <==> key in ChoiceKeys && key != KeyOfSide(EvidenceSide(meanDots))
  {
    if (meanDots < 0.0 && key == ChoiceKeys[0]) || (meanDots >= 0.0 && key == ChoiceKeys[1]) then Some(1)
    else if (meanDots < 0.0 && key == ChoiceKeys[1]) || (meanDots >= 0.0 && key == ChoiceKeys[0]) then Some(0)
    else None
  }

  /** Accuracy depends only on the sign of the summed x coordinates. */
  lemma AccuracyReadsSumSign(xs: seq<real>, key: string)
    requires xs != []
    ensures Accuracy(MeanX(xs), key) == Accuracy(Sum(xs), key)
  {
    MeanSignIsSumSign(xs);
  }

  /** Were the dots' mean exactly the generative mean, the target side's key
      would be the correct one and only it. */
  lemma AccuracyAgreesWithTarget(t: Trial, key: string)
    requires IsTrialType(t)
    ensures Accuracy(GenerativeMean(t) as real, key) == Some(1) <==> key == KeyOfSide(t.target)
  {
  }

  /** At a mean of exactly 0 the two rules part ways: accuracy credits the
      right key while the shift rule treats the evidence as pointing left. */
  lemma ZeroMeanReadDifferently()
    ensures EvidenceSide(0.0) == Right && Polarity(0.0) == -1
  {
  }

  /** `sub % 2 < 1`: the even subject numbers, whose scale is shown reversed. */
  predicate ReversedScale(sub: int)
  {
    sub % 2 < 1
  }

  /** `cj` of lines 446-452: the key at position `i` of `cj_keys` rates `i + 1`,
      turned into `7 - (i + 1)` for even subject numbers. */
  function ConfidenceRating(key: string, sub: int): (r: Option<int>)
    ensures r.Some? <==> key in CjKeys
    ensures r.Some? ==> 1 <= r.value <= 6
  {
    match IndexOf(CjKeys, key)
    case None => None
    case Some(i) =>
      var cj := i + 1;
      Some(if ReversedScale(sub) then 7 - cj else cj)
  }

  /** The key that gives rating `v` to subject `sub`. */
  function KeyOfRating(v: int, sub: int): string
    requires 1 <= v <= 6
  {
    CjKeys[if ReversedScale(sub) then 6 - v else v - 1]
  }

  lemma CjKeysDistinct()
    ensures Distinct(CjKeys)
  {
  }

  /** Every rating 1..6 is given by exactly one key: `KeyOfRating` followed
      by the rating returns the rating. */
  lemma RatingKeyRoundTrip(v: int, sub: int)
    requires 1 <= v <= 6
    ensures ConfidenceRating(KeyOfRating(v, sub), sub) == Some(v)
  {
    CjKeysDistinct();
    IndexOfDistinct(CjKeys, if ReversedScale(sub) then 6 - v else v - 1);
  }

  /** The other direction: the rating of a confidence key leads back to that
      key, so the key-to-rating map is a bijection for either parity. */
  lemma KeyRatingRoundTrip(key: string, sub: int)
    requires key in CjKeys
    ensures ConfidenceRating(key, sub).Some?
    ensures KeyOfRating(ConfidenceRating(key, sub).value, sub) == key
  {
  }

  /** The six scale labels, left to right, as shown to subject `sub` (lines 137-140). */
  function ConfLabels(sub: int): seq<string>
  {
    if ReversedScale(sub) then
      ["Definitely correct", "Probably correct", "Guess correct", "Guess wrong", "Probably error", "Definitely wrong"]
    else
      ["Definitely wrong", "Probably error", "Guess wrong", "Guess correct", "Probably correct", "Definitely correct"]
  }

  /** The meaning of a rating: 1 is a sure error, 6 a sure correct choice. */
  function RatingLabel(v: int): string
    requires 1 <= v <= 6
  {
    ["Definitely wrong", "Probably error", "Guess wrong", "Guess correct", "Probably correct", "Definitely correct"][v - 1]
  }

  /** The reversal is what keeps the scale honest: for either parity, the
      label shown above the `i`-th key names the rating that key records. */
  lemma LabelAboveKeyNamesRating(sub: int, i: nat)
    requires i < |CjKeys|
    ensures ConfidenceRating(CjKeys[i], sub).Some?
    ensures ConfLabels(sub)[i] == RatingLabel(ConfidenceRating(CjKeys[i], sub).value)
  {
    CjKeysDistinct();
    IndexOfDistinct(CjKeys, i);
  }

  /** The blocks that ask for confidence: the last `NbConfBlocks` of the session. */
  predicate IsConfidenceBlock(c: Config, block: nat)
  {
    block >= NbTotalBlocks(c) - NbConfBlocks
  }

  /** The row logged for one trial. Means are absent on a timed-out trial. */
  datatype TrialRecord = TrialRecord(
    difficulty: int, distance: int, target: Side,
    response: string, accuracy: int, rt: real,
    cj: int, rtConf: real,
    preMean: Option<real>, postMean: Option<real>,
    shift: int)

  /** One trial's logged row (lines 377-481). A timed-out trial gets the
      response 'timed-out' and -99 for rt, accuracy, confidence and
      confidence rt; an answered trial gets the accuracy of its key against
      the recorded dots, and the rating of its confidence key exactly when
      its block asks for confidence. Every trial logs the shift of its own
      block, answered or not. */
  function ScoreTrial(c: Config, block: nat, t: Trial, recorded: seq<real>, press: Option<KeyPress>,
                      conf: Option<KeyPress>, shift: seq<int>, sub: int): (r: TrialRecord)
    requires block < NbTotalBlocks(c)
    requires IsShuffleOf(shift, ShiftLevels)
    requires press.Some? ==> recorded != [] && press.value.key in ChoiceKeys
    requires press.Some? && IsConfidenceBlock(c, block) ==> conf.Some? && conf.value.key in CjKeys
    ensures r.distance == GenerativeMean(t) && r.difficulty == t.difficulty && r.target == t.target
    ensures ShiftValue(block, shift) == Ok(r.shift)
    ensures press.None? ==> && r.response == "timed-out" && r.rt == Sentinel as real
                            && r.accuracy == Sentinel && r.cj == Sentinel && r.rtConf == Sentinel as real
    ensures press.Some? ==> && r.response == press.value.key && r.rt == press.value.time
                            && Accuracy(MeanX(recorded), press.value.key) == Some(r.accuracy)
    ensures press.Some? && IsConfidenceBlock(c, block) ==>
              ConfidenceRating(conf.value.key, sub) == Some(r.cj) && r.rtConf == conf.value.time
    ensures 1 <= r.cj <= 6 <==> press.Some? && IsConfidenceBlock(c, block)
    ensures !(press.Some? && IsConfidenceBlock(c, block)) ==> r.cj == Sentinel && r.rtConf == Sentinel as real
    ensures press.None? ==> r.preMean.None? && r.postMean.None?
    ensures press.Some? ==> && r.preMean == Some(MeanX(recorded))
                            && r.postMean == Some(PostDecisionMean(block, MeanX(recorded), t.postDecisionEvi, r.shift))
  {
    ShiftDefinedForEveryBlock(c, shift, block);
    var shft := ShiftValue(block, shift).value;
    var distance := GenerativeMean(t);
    match press
    case None =>
      TrialRecord(t.difficulty, distance, t.target, "timed-out", Sentinel, Sentinel as real,
                  Sentinel, Sentinel as real, None, None, shft)
    case Some(p) =>
      var meanDots := MeanX(recorded);
      var acc := Accuracy(meanDots, p.key).value;
      var postMean := PostDecisionMean(block, meanDots, t.postDecisionEvi, shft);
      if IsConfidenceBlock(c, block) then
        var cj := ConfidenceRating(conf.value.key, sub).value;
        TrialRecord(t.difficulty, distance, t.target, p.key, acc, p.time,
                    cj, conf.value.time, Some(meanDots), Some(postMean), shft)
      else
        TrialRecord(t.difficulty, distance, t.target, p.key, acc, p.time,
                    Sentinel, Sentinel as real, Some(meanDots), Some(postMean), shft)
  }

  /** What an answered row means: accuracy 1 exactly for the key of the side
      the summed x coordinates favour, the side of `distance` is the target,
      the logged shift is 0 exactly outside blocks 2.., and a rating carries
      the label shown above the confidence key that was pressed. */
  lemma ScoredRowMeaning(c: Config, block: nat, t: Trial, recorded: seq<real>, press: Option<KeyPress>,
                         conf: Option<KeyPress>, shift: seq<int>, sub: int)
    requires block < NbTotalBlocks(c)
    requires IsShuffleOf(shift, ShiftLevels)
    requires IsTrialType(t)
    requires press.Some? ==> recorded != [] && press.value.key in ChoiceKeys
    requires press.Some? && IsConfidenceBlock(c, block) ==> conf.Some? && conf.value.key in CjKeys
    ensures var r := ScoreTrial(c, block, t, recorded, press, conf, shift, sub);
            && SideOfDistance(r.distance) == t.target
            && (r.shift == 0 <==> block <= 1)
            && (block >= 2 ==> r.shift in ShiftLevels)
            && (press.Some? ==> (r.accuracy == 1 <==> press.value.key == KeyOfSide(EvidenceSide(Sum(recorded)))))
            && (press.Some? && IsConfidenceBlock(c, block) ==>
                  ConfLabels(sub)[IndexOf(CjKeys, conf.value.key).value] == RatingLabel(r.cj))
  {
    ShiftDefinedForEveryBlock(c, shift, block);
    if press.Some? {
      AccuracyReadsSumSign(recorded, press.value.key);
      if IsConfidenceBlock(c, block) {
        LabelAboveKeyNamesRating(sub, IndexOf(CjKeys, conf.value.key).value);
      }
    }
  }

  /** One trial of the session as far as the logged shift is concerned:
      its block and whether a key was pressed. */
  datatype TrialEvent = TrialEvent(block: nat, responded: bool)

  predicate ValidEvents(c: Config, events: seq<TrialEvent>)
  {
    forall i :: 0 <= i < |events| ==> events[i].block < NbTotalBlocks(c)
  }

  /** The latest answered trial at or before trial `i`, if any. */
  function LatestAnswered(events: seq<TrialEvent>, i: nat): (r: Option<nat>)
    requires i < |events|
    ensures r.Some? ==> r.value <= i && events[r.value].responded
    ensures r.Some? ==> forall k :: r.value < k <= i ==> !events[k].responded
    ensures r.None? ==> forall k :: 0 <= k <= i ==> !events[k].responded
  {
    if events[i].responded then Some(i)
    else if i == 0 then None
    else LatestAnswered(events, i - 1)
  }

  /** Dropping the first trial shifts the latest answered trial by one. */
  lemma LatestAnsweredTail(events: seq<TrialEvent>, i: nat)
    requires 1 <= i < |events|
    ensures LatestAnswered(events, i) ==
              match LatestAnswered(events[1..], i - 1)
              case Some(j) => Some(j + 1)
              case None => if events[0].responded then Some(0) else None
  {
  }

  /** The shift the script logs for trial `i` when `shft` held `last` before
      the session part `events` began: the shift of the latest answered trial
      so far, or the value carried in. */
  function ExpectedLoggedShift(c: Config, events: seq<TrialEvent>, shift: seq<int>, last: Option<int>, i: nat): Option<int>
    requires ValidEvents(c, events) && IsShuffleOf(shift, ShiftLevels)
    requires i < |events|
  {
    match LatestAnswered(events, i)
    case Some(j) =>
      ShiftDefinedForEveryBlock(c, shift, events[j].block);
      Some(ShiftValue(events[j].block, shift).value)
    case None => last
  }

  /** The shifts logged over a run of trials as the script writes them
      (lines 333-336, 381): `shft` is assigned only when a key is pressed and
      carried from trial to trial, so a timed-out trial logs what the last
      answered trial left, and before any answer the name is unbound. */
  function LogShifts(c: Config, events: seq<TrialEvent>, shift: seq<int>, last: Option<int>): Result<seq<int>>
    requires ValidEvents(c, events) && IsShuffleOf(shift, ShiftLevels)
  {
    if events == [] then Ok([])
    else
      var e := events[0];
      ShiftDefinedForEveryBlock(c, shift, e.block);
      if !e.responded && last.None? then Err(NameError)
      else
        var v := if e.responded then ShiftValue(e.block, shift).value else last.value;
        match LogShifts(c, events[1..], shift, Some(v))
        case Err(err) => Err(err)
        case Ok(rest) => Ok([v] + rest)
  }

  /** `LogShifts` against the reference: it fails, with `NameError`, exactly
      when some trial has no answered trial at or before it and nothing was
      carried in; otherwise entry `i` is the shift of the latest answered
      trial up to `i`. */
  lemma {:induction false} LogShiftsSpec(c: Config, events: seq<TrialEvent>, shift: seq<int>, last: Option<int>)
    requires ValidEvents(c, events) && IsShuffleOf(shift, ShiftLevels)
    ensures var r := LogShifts(c, events, shift, last);
            && (r.Ok? <==> forall i :: 0 <= i < |events| ==> ExpectedLoggedShift(c, events, shift, last, i).Some?)
            && (r.Err? ==> r.error == NameError)
            && (r.Ok? ==> |r.value| == |events|
                          && forall i :: 0 <= i < |events| ==> Some(r.value[i]) == ExpectedLoggedShift(c, events, shift, last, i))
  {
    if events != [] {
      var e := events[0];
      var tail := events[1..];
      assert ValidEvents(c, tail) by {
        forall i | 0 <= i < |tail| ensures tail[i].block < NbTotalBlocks(c) {
          assert tail[i] == events[i + 1];
        }
      }
      ShiftDefinedForEveryBlock(c, shift, e.block);
      assert ExpectedLoggedShift(c, events, shift, last, 0) ==
             (if e.responded then Some(ShiftValue(e.block, shift).value) else last);
      if e.responded || last.Some? {
        var v := if e.responded then ShiftValue(e.block, shift).value else last.value;
        LogShiftsSpec(c, tail, shift, Some(v));
        forall i | 1 <= i < |events|
          ensures ExpectedLoggedShift(c, events, shift, last, i) == ExpectedLoggedShift(c, tail, shift, Some(v), i - 1)
        {
          LatestAnsweredTail(events, i);
          match LatestAnswered(tail, i - 1)
          case Some(j) => assert tail[j] == events[j + 1];
          case None =>
        }
        var r := LogShifts(c, events, shift, last);
        if r.Ok? {
          var rest := LogShifts(c, tail, shift, Some(v)).value;
          assert r.value == [v] + rest;
          forall i | 0 <= i < |events|
            ensures Some(r.value[i]) == ExpectedLoggedShift(c, events, shift, last, i)
          {
            if i > 0 {
              assert r.value[i] == rest[i - 1];
            }
          }
        }
      }
    }
  }

  /** The shifts logged over a whole session as written: `shft` starts unbound. */
  function LoggedShiftsAsWritten(c: Config, events: seq<TrialEvent>, shift: seq<int>): Result<seq<int>>
    requires ValidEvents(c, events) && IsShuffleOf(shift, ShiftLevels)
  {
    LogShifts(c, events, shift, None)
  }

  /** Over a whole session, the logging fails with `NameError` exactly when
      the first trial times out; otherwise every trial logs the shift of the
      latest answered trial at or before it. */
  lemma LoggedShiftsAsWrittenSpec(c: Config, events: seq<TrialEvent>, shift: seq<int>)
    requires ValidEvents(c, events) && IsShuffleOf(shift, ShiftLevels)
    ensures var r := LoggedShiftsAsWritten(c, events, shift);
            && (r.Err? <==> events != [] && !events[0].responded)
            && (r.Err? ==> r.error == NameError)
            && (r.Ok? ==> |r.value| == |events| && forall i :: 0 <= i < |events| ==>
                  LatestAnswered(events, i).Some?
                  && Some(r.value[i]) == ExpectedLoggedShift(c, events, shift, None, i))
  {
    LogShiftsSpec(c, events, shift, None);
    if events != [] && !events[0].responded {
      assert ExpectedLoggedShift(c, events, shift, None, 0).None?;
    }
  }

  /** On answered trials the script logs the trial's own block shift, as the
      corrected row does; the two differ only on timed-out trials. */
  lemma AnsweredTrialsLogOwnShift(c: Config, events: seq<TrialEvent>, shift: seq<int>, i: nat)
    requires ValidEvents(c, events) && IsShuffleOf(shift, ShiftLevels)
    requires i < |events| && events[i].responded
    requires LoggedShiftsAsWritten(c, events, shift).Ok?
    ensures var logged := LoggedShiftsAsWritten(c, events, shift).value;
            |logged| == |events| && ShiftValue(events[i].block, shift) == Ok(logged[i])
  {
    LoggedShiftsAsWrittenSpec(c, events, shift);
    ShiftDefinedForEveryBlock(c, shift, events[i].block);
  }

  /** A session whose very first practice trial times out stops with `NameError`. */
  lemma FirstTrialTimeoutRaises(shift: seq<int>)
    requires IsShuffleOf(shift, ShiftLevels)
    ensures LoggedShiftsAsWritten(Shipped, [TrialEvent(0, false)], shift) == Err(NameError)
  {
  }

  /** A session of a practice trial, an answered trial of block 1 and a
      timeout opening block 2 logs shift 0 for the timeout, although block 2
      runs with a shift of at least 10. */
  lemma TimeoutLogsStaleShift(shift: seq<int>)
    requires IsShuffleOf(shift, ShiftLevels)
    ensures var events := [TrialEvent(0, true), TrialEvent(1, true), TrialEvent(2, false)];
            && LoggedShiftsAsWritten(Shipped, events, shift) == Ok([0, 0, 0])
            && ShiftValue(2, shift) != Ok(0)
  {
    ShiftDefinedForEveryBlock(Shipped, shift, 2);
    var events := [TrialEvent(0, true), TrialEvent(1, true), TrialEvent(2, false)];
    var rest: seq<TrialEvent> := [TrialEvent(1, true), TrialEvent(2, false)];
    var last: seq<TrialEvent> := [TrialEvent(2, false)];
    assert last[1..] == [];
    assert LogShifts(Shipped, last[1..], shift, Some(0)) == Ok([]);
    assert [0] + [] == [0];
    assert LogShifts(Shipped, last, shift, Some(0)) == Ok([0]);
    assert rest[1..] == last && [0] + [0] == [0, 0];
    assert LogShifts(Shipped, rest, shift, Some(0)) == Ok([0, 0]);
    assert events[1..] == rest && [0] + [0, 0] == [0, 0, 0];
  }
}

=== FILE: shuffling.dfy ===
/** `random.shuffle` and the per-block shuffle loop of
    BeehivesParadigm_2023_01.py (lines 161-165), where the same list object
    is shuffled in place and appended once per main block. */
module Shuffling {
  import opened Trials

  /** `t` is a reordering of `s`: same elements, same multiplicities. */
  predicate IsShuffleOf<T(==)>(t: seq<T>, s: seq<T>)
  {
    multiset(t) == multiset(s)
  }

  /** The swap loop of `random.shuffle`: for `i` from the last position down
      to 1, exchange positions `i` and `j`, where `j <= i` is the random draw
      `draws[|s| - 1 - i]`. The draws are the random input. */
  method Shuffle<T(==)>(s: seq<T>, draws: seq<int>) returns (r: seq<T>)
    requires |draws| == if |s| == 0 then 0 else |s| - 1
    requires forall k :: 0 <= k < |draws| ==> 0 <= draws[k] <= |s| - 1 - k
    ensures IsShuffleOf(r, s)
    ensures |r| == |s|
  {
    r := s;
    var i := |s| - 1;
    while i > 0
      invariant -1 <= i < |s|
      invariant |r| == |s|
      invariant multiset(r) == multiset(s)
    {
      var j := draws[|s| - 1 - i];
      r := r[i := r[j]][j := r[i]];
      i := i - 1;
    }
  }

  /** The successive contents of the shuffled list: `rounds[b]` is the list
      after the shuffle of main block `b`, each round a reordering of the one
      before it, the first a reordering of `base`. */
  predicate ShuffleRounds(base: seq<Trial>, rounds: seq<seq<Trial>>)
  {
    forall b {:trigger Before(base, rounds, b)} :: 0 <= b < |rounds| ==> IsShuffleOf(rounds[b], Before(base, rounds, b))
  }

  /** The content of the list just before the shuffle of main block `b`. */
  function Before(base: seq<Trial>, rounds: seq<seq<Trial>>, b: nat): seq<Trial>
    requires b <= |rounds|
  {
    if b == 0 then base else rounds[b - 1]
  }

  /** Every round, however many shuffles deep, is a reordering of the base list. */
  lemma {:induction false} RoundIsShuffleOfBase(base: seq<Trial>, rounds: seq<seq<Trial>>, b: nat)
    requires ShuffleRounds(base, rounds)
    requires b < |rounds|
    ensures IsShuffleOf(rounds[b], base)
  {
    assert IsShuffleOf(rounds[b], Before(base, rounds, b));
    if b > 0 {
      RoundIsShuffleOfBase(base, rounds, b - 1);
    }
  }

  /** One more shuffle round extends the rounds. */
  lemma ShuffleRoundsExtend(base: seq<Trial>, rounds: seq<seq<Trial>>, next: seq<Trial>)
    requires ShuffleRounds(base, rounds)
    requires IsShuffleOf(next, Before(base, rounds, |rounds|))
    ensures ShuffleRounds(base, rounds + [next])
  {
    var extended := rounds + [next];
    forall c | 0 <= c < |extended|
      ensures IsShuffleOf(extended[c], Before(base, extended, c))
    {
      if c < |rounds| {
        assert extended[c] == rounds[c];
        assert Before(base, extended, c) == Before(base, rounds, c);
      }
    }
  }

  /** Shuffles the base list once per main block, in place, as the loop of
      lines 163-165 does; `draws[b]` are the random draws of block `b`. */
  method ShuffleBlocks(base: seq<Trial>, draws: seq<seq<int>>) returns (rounds: seq<seq<Trial>>)
    requires forall b :: 0 <= b < |draws| ==> |draws[b]| == if |base| == 0 then 0 else |base| - 1
    requires forall b, k :: 0 <= b < |draws| && 0 <= k < |draws[b]| ==> 0 <= draws[b][k] <= |base| - 1 - k
    ensures |rounds| == |draws|
    ensures ShuffleRounds(base, rounds)
  {
    var list := base;
    rounds := [];
    var b := 0;
    while b < |draws|
      invariant 0 <= b <= |draws|
      invariant |rounds| == b
      invariant |list| == |base|
      invariant ShuffleRounds(base, rounds)
      invariant list == Before(base, rounds, b)
    {
      var shuffled := Shuffle(list, draws[b]);
      ShuffleRoundsExtend(base, rounds, shuffled);
      rounds := rounds + [shuffled];
      list := shuffled;
      b := b + 1;
    }
  }

  /** `main_trial_list` as written: the loop appends the same list object on
      every pass, so once the loop is over every entry shows the content left
      by the last shuffle. */
  function MainTrialListAsWritten(base: seq<Trial>, rounds: seq<seq<Trial>>): (main: seq<seq<Trial>>)
    requires ShuffleRounds(base, rounds)
    ensures |main| == |rounds|
    ensures forall b :: 0 <= b < |main| ==> main[b] == main[0]
    ensures rounds != [] ==> forall b :: 0 <= b < |main| ==> main[b] == rounds[|rounds| - 1]
    ensures forall b :: 0 <= b < |main| ==> IsShuffleOf(main[b], base)
  {
    if rounds == [] then []
    else
      RoundIsShuffleOfBase(base, rounds, |rounds| - 1);
      seq(|rounds|, _ => rounds[|rounds| - 1])
  }

  /** The aliasing shows: with two main blocks whose shuffles give different
      orders, block 0 is presented in the order of the second shuffle. */
  lemma AliasedBlocksRepeatLastShuffle()
    ensures var a := Trial(1, Left, Stronger);
            var z := Trial(80, Right, Weaker);
            var rounds := [[z, a], [a, z]];
            && ShuffleRounds([a, z], rounds)
            && MainTrialListAsWritten([a, z], rounds)[0] != rounds[0]
  {
    var a := Trial(1, Left, Stronger);
    var z := Trial(80, Right, Weaker);
    assert [z, a][0] != [a, z][0];
  }

  /** `main_trial_list` as intended: a snapshot of the list is taken after
      each shuffle, so block `b` is presented in the order of its own shuffle. */
  function MainTrialList(base: seq<Trial>, rounds: seq<seq<Trial>>): (main: seq<seq<Trial>>)
    requires ShuffleRounds(base, rounds)
    ensures |main| == |rounds|
    ensures forall b :: 0 <= b < |main| ==> IsShuffleOf(main[b], base) && |main[b]| == |base|
    ensures forall b :: 0 <= b < |main| ==> main[b] == rounds[b]
  {
    assert forall b :: 0 <= b < |rounds| ==> IsShuffleOf(rounds[b], base) && |rounds[b]| == |base| by {
      forall b | 0 <= b < |rounds| ensures IsShuffleOf(rounds[b], base) && |rounds[b]| == |base| {
        RoundIsShuffleOfBase(base, rounds, b);
        assert |rounds[b]| == |multiset(rounds[b])| == |multiset(base)| == |base|;
      }
    }
    rounds
  }

  /** A reordering keeps the count of every trial type, so each main block
      holds every type as often as the base list does. */
  lemma ShuffleKeepsTypeCounts(base: seq<Trial>, rounds: seq<seq<Trial>>, b: nat, t: Trial)
    requires ShuffleRounds(base, rounds)
    requires b < |rounds|
    ensures multiset(MainTrialList(base, rounds)[b])[t] == multiset(base)[t]
  {
  }
}

=== FILE: trials.dfy ===
/** The trial types and the base trial list built by the three nested loops
    of BeehivesParadigm_2023_01.py (lines 148-159), behind the
    divisibility guard of lines 87-89. */
module Trials {
  import opened Common
  import opened Parameters

  datatype Side = Left | Right
  datatype Direction = Stronger | Weaker

  /** One entry of the trial list: the dictionary with keys 'difficulty',
      'target' and 'postDecisionEvi'. */
  datatype Trial = Trial(difficulty: int, target: Side, postDecisionEvi: Direction)

  /** A trial of one of the 16 types of the main blocks. */
  predicate IsTrialType(t: Trial)
  {
    t.difficulty in DifLvl
  }

  /** The four types of one difficulty, in the order of the two inner loops. */
  function TypesOfDifficulty(d: int): seq<Trial>
  {
    [Trial(d, Left, Stronger), Trial(d, Left, Weaker),
     Trial(d, Right, Stronger), Trial(d, Right, Weaker)]
  }

  /** The product `ds` x {left, right} x {stronger, weaker}, outer loop first. */
  function Product(ds: seq<int>): (r: seq<Trial>)
    ensures |r| == 4 * |ds|
  {
    if ds == [] then [] else TypesOfDifficulty(ds[0]) + Product(ds[1..])
  }

  /** The product holds exactly the trials whose difficulty is one of `ds`. */
  lemma {:induction false} ProductMembers(ds: seq<int>, t: Trial)
    ensures t in Product(ds) <==> t.difficulty in ds
  {
    if ds != [] {
      ProductMembers(ds[1..], t);
      var g := TypesOfDifficulty(ds[0]);
      assert t in g <==> t.difficulty == ds[0] by {
        if t.difficulty == ds[0] {
          assert t == g[(if t.target == Left then 0 else 2) + (if t.postDecisionEvi == Stronger then 0 else 1)];
        }
      }
      assert t.difficulty in ds <==> t.difficulty == ds[0] || t.difficulty in ds[1..];
    }
  }

  /** Without repeated difficulties, the product has no repeated trial type. */
  lemma {:induction false} ProductDistinct(ds: seq<int>)
    requires Distinct(ds)
    ensures Distinct(Product(ds))
  {
    if ds != [] {
      var rest := ds[1..];
      assert Distinct(rest) by {
        forall i, j | 0 <= i < j < |rest| ensures rest[i] != rest[j] {
          assert rest[i] == ds[i + 1] && rest[j] == ds[j + 1];
        }
      }
      ProductDistinct(rest);
      var g := TypesOfDifficulty(ds[0]);
      var p := Product(rest);
      forall i, j | 0 <= i < j < |g + p| ensures (g + p)[i] != (g + p)[j] {
        if j >= 4 && i < 4 {
          ProductMembers(rest, p[j - 4]);
          assert ds[0] !in rest by {
            forall k | 0 <= k < |rest| ensures rest[k] != ds[0] {
              assert rest[k] == ds[k + 1];
            }
          }
        }
      }
    }
  }

  /** `k` copies of the trial `t`: the innermost `for rep in range(...)` loop. */
  function Repeat(t: Trial, k: nat): (r: seq<Trial>)
    ensures |r| == k
  {
    if k == 0 then [] else [t] + Repeat(t, k - 1)
  }

  lemma {:induction false} RepeatCount(t: Trial, k: nat, u: Trial)
    ensures multiset(Repeat(t, k))[u] == if u == t then k else 0
  {
    if k > 0 {
      RepeatCount(t, k - 1, u);
    }
  }

  /** Every type of `types`, in order, each followed by its `k - 1` copies. */
  function Replicate(types: seq<Trial>, k: nat): (r: seq<Trial>)
    ensures |r| == k * |types|
  {
    if types == [] then [] else Repeat(types[0], k) + Replicate(types[1..], k)
  }

  /** In the replicated list, each of the distinct types occurs exactly `k`
      times and nothing else occurs. */
  lemma {:induction false} ReplicateCount(types: seq<Trial>, k: nat, t: Trial)
    requires Distinct(types)
    ensures multiset(Replicate(types, k))[t] == if t in types then k else 0
  {
    if types != [] {
      var rest := types[1..];
      assert Distinct(rest) by {
        forall i, j | 0 <= i < j < |rest| ensures rest[i] != rest[j] {
          assert rest[i] == types[i + 1] && rest[j] == types[j + 1];
        }
      }
      ReplicateCount(rest, k, t);
      RepeatCount(types[0], k, t);
      assert types[0] !in rest by {
        forall m | 0 <= m < |rest| ensures rest[m] != types[0] {
          assert rest[m] == types[m + 1];
        }
      }
      assert t in types <==> t == types[0] || t in rest;
    }
  }

  /** The 16 trial types, in the order the nested loops visit them. */
  function TrialTypes(): seq<Trial>
  {
    Product(DifLvl)
  }

  /** The nested loops visit every trial type once and nothing else. */
  lemma TrialTypesAreTheTypes()
    ensures |TrialTypes()| == 16
    ensures Distinct(TrialTypes())
    ensures forall t :: t in TrialTypes() <==> IsTrialType(t)
  {
    ProductDistinct(DifLvl);
    forall t ensures t in TrialTypes() <==> IsTrialType(t) {
      ProductMembers(DifLvl, t);
    }
  }

  /** The guard of lines 87-89 followed by the construction of lines 154-159.
      `int(n/16)` copies are made of each type; `range` of a negative count
      makes none. */
  function BuildTrialList(nbMainTrialsBlock: int): (r: Result<seq<Trial>>)
    ensures r.Ok? <==> nbMainTrialsBlock % 16 == 0
    ensures r.Err? ==> r.error == Quit
    ensures r.Ok? ==> |r.value| == Iterations(nbMainTrialsBlock)
    ensures r.Ok? ==> forall t :: multiset(r.value)[t] ==
                        if IsTrialType(t) then Iterations(nbMainTrialsBlock) / 16 else 0
  {
    if nbMainTrialsBlock % 16 != 0 then Err(Quit)
    else
      var reps := Iterations(nbMainTrialsBlock / 16);
      TrialTypesAreTheTypes();
      ReplicateCounts(TrialTypes(), reps);
      assert reps * 16 == Iterations(nbMainTrialsBlock);
      Ok(Replicate(TrialTypes(), reps))
  }

  lemma ReplicateCounts(types: seq<Trial>, k: nat)
    requires Distinct(types)
    ensures forall t :: multiset(Replicate(types, k))[t] == if t in types then k else 0
  {
    forall t ensures multiset(Replicate(types, k))[t] == if t in types then k else 0 {
      ReplicateCount(types, k, t);
    }
  }

  /** With the shipped 64 trials per block, the list has 64 entries and each
      of the 16 types appears 4 times. */
  lemma ShippedTrialList()
    ensures BuildTrialList(NbMainTrialsBlock).Ok?
    ensures |BuildTrialList(NbMainTrialsBlock).value| == 64
    ensures forall t :: IsTrialType(t) ==> multiset(BuildTrialList(NbMainTrialsBlock).value)[t] == 4
  {
  }
}
